=== FILE: README.md ===
# ADH1 quiz: navigation, quiz screen and fog layer, modelled in Dafny

The application walks a visitor through six questions about autosomal dominant
hypocalcemia type 1. It has a landing screen that offers the topics, a quiz
screen per question, and a final screen. A canvas "fog layer" of smoke puffs
reacts to a spotlight. This project models three pieces of that code as pure
Dafny functions and proves properties about them:

- **Navigation** (`navigation.dfy`) covers the top-level component's state:
  the screen, the selected topic and the question index. It models the five
  handlers: topic select, quiz complete, next question, back to start and
  restart.
- **QuizData** and **Quiz** (`quiz_data.dfy`, `quiz.dfy`) cover the quiz
  screen:
  - the question table and its lookup, with a fallback question;
  - the "select once" answer rule;
  - the explanation and auto-advance timers, as pending flags with "fires"
    events;
  - the next and close buttons, which cancel the auto-advance timer;
  - the rules for dimming and border colour.
- **AppModel** (`app_model.dfy`) composes the two. The quiz screen is keyed by
  the question index, so every change of index, and every departure from the
  quiz screen, throws away the quiz screen's local state and its timers. The
  composition takes the question table as a parameter.
- **FogNoise** and **Fog** (`fog_noise.dfy`, `fog.dfy`) cover:
  - the lattice noise;
  - the `Puff` record and the creation of the 80 puffs from random draws;
  - one animation frame: the clock step, the lights-on gate, noise drift,
    repulsion and swirl inside 1.8 spotlight radii, homing, ×0.96 damping,
    integration and rotation;
  - the opacity fade inside the spotlight.

  The host's `sin`, `cos`, `sqrt` and `pow` are function-valued parameters
  (`FogNoise.Maths`). Numbers are `real`.

`Options` (`options.dfy`) holds the `Option` type.

The fog layer fixes its parameters in code, and the model follows it:

- the zone is fixed at 1.8 radii;
- the push exponent is fixed at 1.5;
- the fade exponent is fixed at 2;
- there is no wrapping;
- while the lights are on, a frame advances the clock, leaves every puff
  unchanged and draws nothing.

## Model

| member | source | states |
|---|---|---|
| Navigation.Initial | src/app/App.tsx:19-21 | The app starts on the landing screen with an empty topic and index 0, a state that satisfies the navigation invariant |
| Navigation.TopicSelect | src/app/App.tsx:23-27 | Choosing any topic opens the quiz on that topic at index 0, whatever the topic's position in the list; the result always satisfies the invariant |
| Navigation.QuizComplete | src/app/App.tsx:29-31 | Completion changes only the screen, to final; topic and index are untouched and the invariant is kept |
| Navigation.NextQuestion | src/app/App.tsx:33-42 | If index+1 < 6, the topic becomes topics[index+1], the index increments and the screen is unchanged; otherwise the screen becomes final with topic and index untouched; the invariant is kept |
| Navigation.BackToStart | src/app/App.tsx:44-48 | Back to start yields the initial state from any state |
| Navigation.Restart | src/app/App.tsx:50-54 | Restart yields the initial state from any state |
| Navigation.BackToStartIsRestartAndIdempotent | src/app/App.tsx:44-54 | Back to start and restart are the same transition, and applying either twice equals applying it once |
| Navigation.RunPreservesValid | src/app/App.tsx:19-54 | Any sequence of handler calls from a valid state keeps 0 ≤ index < 6, and index > 0 implies topic == topics[index] |
| Navigation.ReachableIsValid | src/app/App.tsx:19-54 | Every state reachable from the initial state has 0 ≤ index ≤ 5 and satisfies the invariant |
| Navigation.NextReachesFinal | src/app/App.tsx:33-42 | From any valid quiz state, the first 6 − index next-question events (at most six) stay on the quiz screen and step the index one by one, and the last of them reaches final on the last topic |
| QuizData.AnswersFor | src/app/components/QuizScreen.tsx:134-135 | The answer buttons are the table entry's answers, and none when the topic is not a key |
| QuizData.QuestionFor | src/app/components/QuizScreen.tsx:194 | The question shown is the entry's question, or the fixed fallback question for an unknown topic |
| QuizData.ExplanationFor | src/app/components/QuizScreen.tsx:274 | The explanation shown is the entry's explanation, or the fixed fallback explanation for an unknown topic |
| QuizData.CorrectCount | src/app/components/QuizScreen.tsx:19-72 | Helper behind "exactly one correct answer": the number of answers whose `correct` flag is set is at most the number of answers, and zero exactly when none is set |
| QuizData.TablesWellFormed | src/app/components/QuizScreen.tsx:19-72 | Every table entry has exactly one correct answer and pairwise-distinct, non-empty answer texts; the texts serve as identity and as render key |
| QuizData.DiagnosticTimeTopicFallsBack | src/app/components/QuizScreen.tsx:38 | The navigation topic "Average Diagnostic Time" is not a key of the table, which uses "Average Time to Diagnosis". That quiz step therefore gets no answers and the fallback question. Every other topic is a key, and the corrected table has every topic |
| Quiz.SelectAnswer | src/app/components/QuizScreen.tsx:106-118 | Only the first selection takes effect: it records the answer and arms both timers. Once an answer is selected, further clicks change nothing. A non-empty answer leaves the buttons disabled |
| Quiz.OnlyFirstSelectionCounts | src/app/components/QuizScreen.tsx:106-118 | After a first non-empty selection, any number of further selections leave the state (selection and timers) exactly as it was |
| Quiz.FireExplanation | src/app/components/QuizScreen.tsx:109-111 | The explanation timer shows the explanation exactly when it is pending, and touches neither the selection nor the auto-advance timer |
| Quiz.FireAutoAdvance | src/app/components/QuizScreen.tsx:114-116 | The auto-advance timer calls the completion callback exactly when it is pending. It clears the auto-advance timer and leaves the explanation timer, the selection and the shown explanation as they were |
| Quiz.ClickNext | src/app/components/QuizScreen.tsx:120-125 | "Next" cancels the pending auto-advance timer, then calls the next-question callback |
| Quiz.ClickBack | src/app/components/QuizScreen.tsx:127-132 | The close button cancels the pending auto-advance timer, then calls back-to-start |
| Quiz.Unmount | src/app/components/QuizScreen.tsx:97-104 | Unmounting clears the auto-advance timer; the explanation timer is left alone |
| Quiz.NoCompletionAfterCancel | src/app/components/QuizScreen.tsx:97-132 | After next, close or unmount, the auto-advance timer firing calls no callback |
| Quiz.BorderClasses | src/app/components/QuizScreen.tsx:220-222 | Each answer gets exactly one border class: gold iff selected and correct, red iff selected and incorrect, grey iff not selected |
| Quiz.ShouldDim | src/app/components/QuizScreen.tsx:200-202 | The correct answer is never dimmed, nothing is dimmed before a selection, a dimmed answer has only the grey border of an unselected one, and with a selection every incorrect answer other than the selected one is dimmed |
| AppModel.QuizAfter | src/app/App.tsx:62-70 | The quiz screen keeps its local state exactly while it stays on screen under the same index key. Entering the quiz screen from elsewhere, changing the index, or leaving the quiz screen gives fresh state |
| AppModel.Enabled | src/app/App.tsx:59-73 | The landing screen offers only its topics and the final screen only restart. The quiz screen offers neither, always offers close (QuizScreen.tsx:165), and takes an answer click only while nothing is selected (QuizScreen.tsx:215) |
| AppModel.Invoke | src/app/App.tsx:66-68 | The quiz screen's completion callback moves only the screen to final; next is the next-question handler; back-to-start returns to the initial state |
| AppModel.Step | src/app/components/QuizScreen.tsx:106-132 | An event the screen does not offer changes nothing. Off the quiz screen the quiz state is fresh. Choosing a topic opens that topic's quiz with fresh state (App.tsx:23-27). An answer click records the answer and leaves navigation alone. The explanation timer shows the explanation. The auto-advance timer ends the quiz on the final screen from whatever question is showing (App.tsx:29-31). Next moves to the next question with fresh state. Close and restart return to the initial app state |
| AppModel.RunAppend | src/app/App.tsx:18-54 | Running two event sequences one after the other equals running their concatenation |
| AppModel.StepPreservesValid | src/app/components/QuizScreen.tsx:106-132 | Every event keeps the app invariant. The navigation invariant holds. Off the quiz screen the quiz state is fresh. On it, a selection is one of the topic's answers and is non-empty, and the explanation and both timers exist only after a selection |
| AppModel.ReachableValid | src/app/App.tsx:18-54 | Every state reachable from the start satisfies the app invariant and has an index inside the topic list |
| AppModel.ExplanationExcludesSpotlight | src/app/components/QuizScreen.tsx:174-184 | On the quiz screen the explanation appears only after a selection, and the spotlight overlay only while nothing is selected (and no auto-advance is pending), so they never appear together |
| AppModel.NextRemountsFresh | src/app/App.tsx:62-70 | Every next-question step leaves fresh quiz state. If it stays on the quiz screen, the index is one higher; it reaches final exactly from the last question |
| AppModel.NoCompletionAfterNextOrClose | src/app/components/QuizScreen.tsx:120-132 | After next or close, no auto-advance timer is pending on the screen that follows, so the completion callback cannot fire |
| AppModel.UnknownTopicOnlyCloses | src/app/components/QuizScreen.tsx:134-135 | On a quiz screen whose topic is not in the table, nothing is ever selected and the explanation is never shown. Closing is the only event on offer |
| AppModel.AnswerStep | src/app/components/QuizScreen.tsx:106-118 | Clicking one of the topic's answers on a fresh quiz screen selects it and arms both timers |
| AppModel.ExplanationStep | src/app/components/QuizScreen.tsx:109-111 | The pending explanation timer firing on the quiz screen shows the explanation |
| AppModel.NextStep | src/app/components/QuizScreen.tsx:277-294 | Clicking the "next" button, which exists once the explanation shows, moves to the next question with fresh state, or to final after the last |
| AppModel.SourceNeverPassesThirdTopic | src/app/components/QuizScreen.tsx:38 | With the table as written, no run of clicks and timer firings ever reaches a question index above 2 |
| AppModel.AnswerAndNext | src/app/components/QuizScreen.tsx:106-125 | With a table entry for the current topic, three events (answer, explanation timer, next) reach the following question with fresh state, or final after the last |
| AppModel.CorrectedReachesEveryTopic | src/app/App.tsx:33-42 | With the corrected table, every question of the list, the last included, is reached by some run from the start, on its own topic with fresh state |
| FogNoise.Lattice | src/app/components/FogLayer.tsx:40-42 | The lattice coordinate floor(v) & 255 lies in 0..255 and is congruent to floor(v) modulo 256 |
| FogNoise.LatticePeriodic | src/app/components/FogLayer.tsx:40-42 | Shifting a coordinate by 256 leaves its lattice value unchanged |
| FogNoise.NoiseCellwise | src/app/components/FogLayer.tsx:39-48 | Noise depends only on the integer cells of its inputs |
| FogNoise.NoisePeriodic | src/app/components/FogLayer.tsx:39-48 | Noise repeats every 256 units in each of its three coordinates |
| FogNoise.Noise | src/app/components/FogLayer.tsx:39-48 | The noise is the product of a sine, a cosine and a sine of the lattice cell; with sine and cosine in [-1, 1], it lies in [-1, 1] |
| Fog.Scale | src/app/components/FogLayer.tsx:67-68 | A random draw in [0, 1) scaled to a viewport extent lies inside the viewport |
| Fog.NewPuff | src/app/components/FogLayer.tsx:66-83 | A new puff starts at its home, inside the viewport, with size in [140, 360), base opacity in [0.04, 0.13), velocity in [-0.2, 0.2)×[-0.1, 0.1), noise offsets in [0, 100), rotation in [0, 2π) and spin in [-0.0015, 0.0015) |
| Fog.InitialPuffs | src/app/components/FogLayer.tsx:66 | The swarm has 80 puffs, each at its home inside the viewport and with appearance in range |
| Fog.Distance | src/app/components/FogLayer.tsx:104-106 | The distance to the spotlight is the square root of a sum of squares, so it is never negative when the square root of a non-negative number is not |
| Fog.Drift | src/app/components/FogLayer.tsx:97-101 | The drift samples the noise at the puff's offsets shifted by the clock; with bounded sine and cosine, it changes vx by at most 0.06 and vy by at most 0.04 per frame |
| Fog.Repulsion | src/app/components/FogLayer.tsx:108-117 | Repulsion and swirl are zero unless 0 < dist < 1.8·radius |
| Fog.RepulsionSplitsIntoPushAndSwirl | src/app/components/FogLayer.tsx:108-117 | Inside the zone, the added velocity is a push straight away from the spotlight of size `force`, plus a swirl along the perpendicular of size 0.8·force. Both are stated multiplied by the distance |
| Fog.Advance | src/app/components/FogLayer.tsx:119-129 | Homing, damping and integration change only position, velocity and rotation. The new position is the old one plus the new velocity, and rotation advances by the spin |
| Fog.DampingAtHome | src/app/components/FogLayer.tsx:119-128 | At home, with no drift or repulsion, the old velocity carries over multiplied by the damping factor 0.96 |
| Fog.MomentumCarriesOver | src/app/components/FogLayer.tsx:99-128 | For any drift and repulsion, the new velocity depends on the old one with slope 0.96: two puffs that differ only in velocity end the frame with velocities 0.96 times as far apart |
| Fog.AtRestAtHomeStays | src/app/components/FogLayer.tsx:119-128 | With no drift or repulsion, a puff at home with zero velocity stays there with zero velocity: home is the fixed point of homing, damping and integration |
| Fog.HomingPullsBack | src/app/components/FogLayer.tsx:119-128 | Starting at rest, with no other force, a puff away from home gets a velocity of 0.0006·0.96 times its offset to home, and moves strictly toward home without passing it |
| Fog.Faded | src/app/components/FogLayer.tsx:131-135 | The drawn opacity lies in [0, base]. It is the base when dist ≥ radius, and 0 when dist = 0 |
| Fog.FadeMonotone | src/app/components/FogLayer.tsx:131-135 | The drawn opacity never decreases as the distance from the spotlight grows |
| Fog.PuffUpdate | src/app/components/FogLayer.tsx:96-135 | Each puff's update keeps home, size, base opacity, noise offsets and spin. Opacity is faded by the distance computed before the puff moves, and stays in [0, base]. Inside the repel zone the velocity gets drift, repulsion with swirl and homing, then damping; outside it, only drift and homing |
| Fog.Frame | src/app/components/FogLayer.tsx:85-155 | A frame advances the clock by exactly 0.008. With the lights on, no puff changes and nothing is drawn. With them off, every puff gets the per-puff update at the advanced clock and is drawn with its faded opacity, which lies in [0, base]. Home, size, base opacity, noise offsets and spin of every puff are kept |
| Fog.FramesKeepSwarm | src/app/components/FogLayer.tsx:85-166 | Over any run of frames at one spotlight radius (a radius change restarts the effect, line 166), the swarm keeps its size, every puff keeps its home and appearance range, and the clock advances by 0.008 per frame |
| Fog.CentreAndFarPuffs | src/app/components/FogLayer.tsx:104-135 | With the spotlight at (400, 300) and radius 280, a puff at the centre is drawn invisible and gets no push. A puff at (400, 860), 560 away and outside the 504 zone, is drawn at base opacity and gets no push |

## Findings

| source | as written | input that shows it | evidently intended | confidence | as-written member | corrected member |
|---|---|---|---|---|---|---|
| src/app/components/QuizScreen.tsx:38 | The table key is "Average Time to Diagnosis", but the navigation's third topic (src/app/App.tsx:12) is "Average Diagnostic Time". The lookup therefore falls back: the screen shows no answer buttons, so there is no explanation and no "next" button | Choose "What Is ADH1?", answer, let the explanation show, click next; do it again. At index 2 the only control is close, so questions 4 to 6 are never reached by "next" | The key equals the navigation topic, so the third question has its two answers and the quiz can be walked to the end | high; not executed | AppModel.SourceNeverPassesThirdTopic | AppModel.CorrectedReachesEveryTopic |

`QuizData.SourceTable` is the table as written and `QuizData.CorrectedTable`
is the table with that key renamed. The composed model takes the table as a
parameter. Its invariant and timer lemmas hold for every well-formed table,
and so for both. The progress lemma uses the corrected table.

## Left out

- Rendering is not modelled: JSX, `motion` animation props, Tailwind class
  strings other than the selection-to-style mapping, and the CSS gradient
  strings. It is presentation only.
- Mouse tracking and `getBoundingClientRect` offsets are not modelled. They
  only move the CSS spotlight. The fog's spotlight centre is a frame input
  instead.
- The window resize listener is not modelled. The viewport size is a
  parameter of puff creation.
- The `requestAnimationFrame` / `cancelAnimationFrame` loop is scheduling
  plumbing. `Fog.Frame` is one step, and `Fog.Frames` runs a list of them.
- A change of spotlight radius ends the loop and re-runs the effect, which
  builds a new swarm of 80 puffs with new random homes. `Fog.Frames` models
  one run, at one radius. The new run starts from `Fog.InitialPuffs` again.
- Canvas painting is not modelled: the gradient stops, save, translate,
  rotate, scale, arc and fill. The model keeps the opacity each puff is drawn
  with.
- The canvas-or-context-missing early return is not modelled. It is an
  environment failure with no state to model.
- `Math.sin`, `Math.cos`, `Math.sqrt` and `Math.pow` are function parameters.
  Their only assumed properties are sine and cosine in [-1, 1] (where stated)
  and a non-negative square root of a non-negative number. Floating-point rounding, NaN and infinities
  are not modelled.
- `Math.pow(d / radius, 2)` is modelled as the exact square.
- `Math.random` draws are parameters in [0, 1).
- `Math.PI` is the shortest decimal that rounds to it, 3.141592653589793.
- Timer durations (600 ms, 6000 ms, 400 ms) are not modelled. Timers are
  pending flags and firing events, in any order, so the model also admits
  orders the durations exclude.
- The landing screen is not part of this model. Its delayed topic callback is
  the `TopicChosen` event, offered only while the landing screen shows.
- The landing screen's 400 ms timer is never cancelled. It could call the
  topic handler after the quiz screen has appeared. That path is not
  modelled.
- The final screen is not part of this model. Its restart button is the
  `RestartClicked` event.
- The exit animation is not modelled. During it the outgoing screen stays
  mounted for half a second. The model unmounts it at once.
- Fog.Force: `Math.pow(1 - dist/zone, 1.5)` is uninterpreted. No monotonicity
  or sign of the repulsion magnitude is stated.
- Fog.RepulsionSplitsIntoPushAndSwirl: is stated multiplied by the distance,
  rather than assuming that the square-root parameter returns the exact
  Euclidean length.
- FogNoise.Noise: the bound holds only under the stated bound on the sine and
  cosine parameters.
- Fog.Drift: the bound holds only under the stated bound on the sine and
  cosine parameters.
- Quiz.SelectAnswer: follows the script's truthiness, where an empty answer
  text would not lock the buttons. No table answer is empty
  (`QuizData.TablesWellFormed`), so in the app a selection always locks them.
- Quiz.NoCompletionAfterCancel: holds for the model's single auto-advance
  flag. In the script, an empty answer text would let a second click through,
  and that click would overwrite the timer reference. The first 6000 ms timer
  would then be orphaned: next, close and unmount clear only the second, so
  the completion callback could still fire. The app never reaches this,
  because every selection there is non-empty (`AppModel.StepPreservesValid`).
- QuizData.AnswersFor: the lookup is modelled only for topics that are not
  property names of the script's object prototype (such as "constructor").
  For those the script's lookup is truthy, and reading the answers throws.
  The app passes only the six navigation topics.
- QuizData.QuestionFor: modelled only for topics that are not object-prototype
  property names, for the same reason.
- QuizData.ExplanationFor: modelled only for topics that are not
  object-prototype property names, for the same reason.

=== FILE: app_model.dfy ===
/**
 The application as a whole: the navigation state of the top-level component
 together with the local state of the quiz screen while it is mounted. The
 quiz screen is keyed by the question index, so a change of index (or leaving
 the quiz screen) discards its local state, timers included, and the next
 quiz screen starts fresh.
 */
module AppModel {
  import opened Options
  import opened QuizData
  import opened Quiz
  import Navigation

  datatype AppState = AppState(nav: Navigation.NavState, quiz: QuizState)

  /** What the user and the timers can do. */
  datatype Event =
    | TopicChosen(topic: string)
    | AnswerClicked(text: string)
    | NextClicked
    | CloseClicked
    | ExplanationTimerFires
    | AutoAdvanceTimerFires
    | RestartClicked

  function Init(): AppState {
    AppState(Navigation.Initial(), Fresh)
  }

  predicate HasAnswer(answers: seq<Answer>, text: string) {
    exists i :: 0 <= i < |answers| && answers[i].text == text
  }

  /** Which events the rendered screen offers: the landing screen its topics,
      the quiz screen its enabled answer buttons, the "next" button once the
      explanation is shown, the close button always, and the final screen its
      restart button; a timer fires only while pending. */
  predicate Enabled(table: Table, s: AppState, e: Event): (r: bool)
    ensures r && s.nav.screen == Navigation.Landing ==> e.TopicChosen? && e.topic in Navigation.Topics
    ensures r && s.nav.screen == Navigation.Final ==> e == RestartClicked
    ensures r && s.nav.screen == Navigation.Quiz ==> !e.TopicChosen? && e != RestartClicked
    ensures s.nav.screen == Navigation.Quiz && e == CloseClicked ==> r
    ensures r && e.AnswerClicked? ==> !Selected(s.quiz.selected)
  {
    match e
    case TopicChosen(t) => s.nav.screen == Navigation.Landing && t in Navigation.Topics
    case AnswerClicked(t) =>
      && s.nav.screen == Navigation.Quiz
      && !ButtonsDisabled(s.quiz)
      && HasAnswer(AnswersFor(table, s.nav.topic), t)
    case NextClicked => s.nav.screen == Navigation.Quiz && s.quiz.showExplanation
    case CloseClicked => s.nav.screen == Navigation.Quiz
    case ExplanationTimerFires => s.nav.screen == Navigation.Quiz && s.quiz.explanationPending
    case AutoAdvanceTimerFires => s.nav.screen == Navigation.Quiz && s.quiz.autoAdvancePending
    case RestartClicked => s.nav.screen == Navigation.Final
  }

  /** The navigation handler a quiz callback is wired to. */
  function Invoke(nav: Navigation.NavState, cb: Callback): (r: Navigation.NavState)
    ensures cb == NoCallback ==> r == nav
    ensures cb == OnComplete ==> r == nav.(screen := Navigation.Final)
    ensures cb == OnNext ==> r == Navigation.NextQuestion(nav)
    ensures cb == OnBackToStart ==> r == Navigation.Initial()
  {
    match cb
    case NoCallback => nav
    case OnComplete => Navigation.QuizComplete(nav)
    case OnNext => Navigation.NextQuestion(nav)
    case OnBackToStart => Navigation.BackToStart(nav)
  }

  /** The quiz screen keeps its local state only while it stays mounted under
      the same key; otherwise the screen shown next starts fresh. */
  function QuizAfter(before: Navigation.NavState, after: Navigation.NavState, q: QuizState): (r: QuizState)
    ensures after.screen != Navigation.Quiz ==> r == Fresh
    ensures before.screen != Navigation.Quiz ==> r == Fresh
    ensures before.index != after.index ==> r == Fresh
    ensures before.screen == Navigation.Quiz && after.screen == Navigation.Quiz && before.index == after.index ==> r == q
  {
    if before.screen == Navigation.Quiz && after.screen == Navigation.Quiz && before.index == after.index then q
    else Fresh
  }

  function React(s: AppState, r: Reaction): AppState {
    var nav := Invoke(s.nav, r.callback);
    AppState(nav, QuizAfter(s.nav, nav, r.state))
  }

  /** One event; an event the screen does not offer changes nothing. */
  function Step(table: Table, s: AppState, e: Event): (r: AppState)
    ensures !Enabled(table, s, e) ==> r == s
    ensures Enabled(table, s, e) && r.nav.screen != Navigation.Quiz ==> r.quiz == Fresh
    ensures Enabled(table, s, e) && e.AnswerClicked? ==> r.nav == s.nav && r.quiz.selected == Some(e.text)
    ensures Enabled(table, s, e) && e.NextClicked? ==> r.nav == Navigation.NextQuestion(s.nav) && r.quiz == Fresh
    ensures Enabled(table, s, e) && e.CloseClicked? ==> r == Init()
    ensures Enabled(table, s, e) && e.TopicChosen? ==> r == AppState(Navigation.TopicSelect(s.nav, e.topic), Fresh)
    ensures Enabled(table, s, e) && e.ExplanationTimerFires? ==> r == s.(quiz := FireExplanation(s.quiz))
    ensures Enabled(table, s, e) && e.AutoAdvanceTimerFires? ==> r == AppState(s.nav.(screen := Navigation.Final), Fresh)
    ensures Enabled(table, s, e) && e.RestartClicked? ==> r == Init()
  {
    if !Enabled(table, s, e) then s
    else
      match e
      case TopicChosen(t) =>
        var nav := Navigation.TopicSelect(s.nav, t);
        AppState(nav, QuizAfter(s.nav, nav, s.quiz))
      case AnswerClicked(t) => s.(quiz := SelectAnswer(s.quiz, t))
      case NextClicked => React(s, ClickNext(s.quiz))
      case CloseClicked => React(s, ClickBack(s.quiz))
      case ExplanationTimerFires => s.(quiz := FireExplanation(s.quiz))
      case AutoAdvanceTimerFires => React(s, FireAutoAdvance(s.quiz))
      case RestartClicked => AppState(Navigation.Restart(s.nav), Fresh)
  }

  function Run(table: Table, s: AppState, es: seq<Event>): AppState
    decreases |es|
  {
    if es == [] then s else Run(table, Step(table, s, es[0]), es[1..])
  }

  lemma {:induction false} RunAppend(table: Table, s: AppState, a: seq<Event>, b: seq<Event>)
    ensures Run(table, s, a + b) == Run(table, Run(table, s, a), b)
    decreases |a|
  {
    if a == [] {
      assert a + b == b;
    } else {
      assert (a + b)[0] == a[0];
      assert (a + b)[1..] == a[1..] + b;
      RunAppend(table, Step(table, s, a[0]), a[1..], b);
    }
  }

  // ---------------------------------------------------------------------
  // Invariant

  /** The quiz screen's local state on a given topic: a selection is one of
      the topic's answers (so never empty), and the explanation and both
      timers exist only after a selection. */
  ghost predicate QuizValid(table: Table, topic: string, q: QuizState) {
    && (q.selected.Some? ==> HasAnswer(AnswersFor(table, topic), q.selected.value))
    && (q.selected.Some? <==> Selected(q.selected))
    && (q.showExplanation ==> q.selected.Some?)
    && (q.explanationPending ==> q.selected.Some? && !q.showExplanation)
    && (q.autoAdvancePending ==> q.selected.Some?)
  }

  ghost predicate Valid(table: Table, s: AppState) {
    && Navigation.Valid(s.nav)
    && (s.nav.screen != Navigation.Quiz ==> s.quiz == Fresh)
    && (s.nav.screen == Navigation.Quiz ==> QuizValid(table, s.nav.topic, s.quiz))
  }

  lemma InitValid(table: Table)
    ensures Valid(table, Init())
  {
  }

  lemma SelectionIsNonEmpty(table: Table, topic: string, t: string)
    requires WellFormed(table)
    requires HasAnswer(AnswersFor(table, topic), t)
    ensures t != []
  {
    var i :| 0 <= i < |AnswersFor(table, topic)| && AnswersFor(table, topic)[i].text == t;
    assert topic in table;
    assert NonEmptyTexts(table[topic].answers);
  }

  lemma StepPreservesValid(table: Table, s: AppState, e: Event)
    requires WellFormed(table) && Valid(table, s)
    ensures Valid(table, Step(table, s, e))
  {
    if Enabled(table, s, e) {
      match e
      case TopicChosen(t) =>
      case AnswerClicked(t) =>
        SelectionIsNonEmpty(table, s.nav.topic, t);
      case NextClicked =>
      case CloseClicked =>
      case ExplanationTimerFires =>
      case AutoAdvanceTimerFires =>
      case RestartClicked =>
    }
  }

  lemma {:induction false} RunPreservesValid(table: Table, s: AppState, es: seq<Event>)
    requires WellFormed(table) && Valid(table, s)
    ensures Valid(table, Run(table, s, es))
    decreases |es|
  {
    if es != [] {
      StepPreservesValid(table, s, es[0]);
      RunPreservesValid(table, Step(table, s, es[0]), es[1..]);
    }
  }

  /** Every state reachable from the start satisfies the invariant: the
      question index stays within the topic list, a later question's topic is
      the one its index names, and on the quiz screen the explanation, both
      timers and a dimmed or coloured answer exist only after a selection. */
  lemma ReachableValid(table: Table, es: seq<Event>)
    requires WellFormed(table)
    ensures Valid(table, Run(table, Init(), es))
    ensures Run(table, Init(), es).nav.index < |Navigation.Topics|
  {
    RunPreservesValid(table, Init(), es);
  }

  /** On the quiz screen the explanation is shown only after a selection, and
      the spotlight is drawn only while nothing is selected; so the two never
      appear together. */
  lemma ExplanationExcludesSpotlight(table: Table, s: AppState)
    requires Valid(table, s) && s.nav.screen == Navigation.Quiz
    ensures s.quiz.showExplanation ==> !SpotlightShown(s.quiz)
    ensures SpotlightShown(s.quiz) ==> s.quiz.selected == None && !s.quiz.autoAdvancePending
  {
  }

  /** Every "next" that stays on the quiz screen moves to the following
      question with fresh local state. */
  lemma NextRemountsFresh(table: Table, s: AppState)
    requires Valid(table, s) && Enabled(table, s, NextClicked)
    ensures var s' := Step(table, s, NextClicked);
            && s'.quiz == Fresh
            && (s'.nav.screen == Navigation.Quiz ==> s'.nav.index == s.nav.index + 1)
            && (s'.nav.screen == Navigation.Final <==> s.nav.index + 1 == |Navigation.Topics|)
  {
  }

  /** Once "next" or "close" was clicked, the completion callback cannot fire:
      whatever screen follows has no pending auto-advance timer. */
  lemma NoCompletionAfterNextOrClose(table: Table, s: AppState, e: Event)
    requires Valid(table, s) && (e == NextClicked || e == CloseClicked)
    requires Enabled(table, s, e)
    ensures !Enabled(table, Step(table, s, e), AutoAdvanceTimerFires)
    ensures Step(table, s, e).nav.screen != Navigation.Final || s.nav.index + 1 == |Navigation.Topics|
  {
  }

  /** A quiz screen whose topic has no entry offers no answer, so it never
      shows the explanation or the "next" button: closing is the only way out. */
  lemma UnknownTopicOnlyCloses(table: Table, s: AppState, e: Event)
    requires Valid(table, s) && s.nav.screen == Navigation.Quiz && s.nav.topic !in table
    ensures s.quiz.selected == None && !s.quiz.showExplanation
    ensures Enabled(table, s, e) ==> e == CloseClicked
  {
    assert AnswersFor(table, s.nav.topic) == [];
  }

  // ---------------------------------------------------------------------
  // The third topic, with the table as written and as corrected

  /** With the table as written, the quiz never gets past its third question:
      the third topic has no entry, so that screen has no "next" button. */
  lemma SourceStepStaysWithinThirdTopic(s: AppState, e: Event)
    requires Valid(SourceTable, s) && s.nav.index <= 2
    ensures Step(SourceTable, s, e).nav.index <= 2
  {
    if Enabled(SourceTable, s, e) && e == NextClicked {
      DiagnosticTimeTopicFallsBack();
      var t := s.quiz.selected.value;
      assert HasAnswer(AnswersFor(SourceTable, s.nav.topic), t);
      assert s.nav.topic in SourceTable;
      assert s.nav.index != 2;
    }
  }

  lemma {:induction false} SourceRunStaysWithinThirdTopic(s: AppState, es: seq<Event>)
    requires Valid(SourceTable, s) && s.nav.index <= 2
    ensures Run(SourceTable, s, es).nav.index <= 2
    decreases |es|
  {
    if es != [] {
      TablesWellFormed();
      StepPreservesValid(SourceTable, s, es[0]);
      SourceStepStaysWithinThirdTopic(s, es[0]);
      SourceRunStaysWithinThirdTopic(Step(SourceTable, s, es[0]), es[1..]);
    }
  }

  /** As written: no sequence of clicks and timer firings reaches the fourth,
      fifth or sixth question. */
  lemma SourceNeverPassesThirdTopic(es: seq<Event>)
    ensures Run(SourceTable, Init(), es).nav.index <= 2
  {
    SourceRunStaysWithinThirdTopic(Init(), es);
  }

  lemma AnswerStep(table: Table, s: AppState, a: string)
    requires s.nav.screen == Navigation.Quiz && s.quiz == Fresh
    requires HasAnswer(AnswersFor(table, s.nav.topic), a)
    ensures Step(table, s, AnswerClicked(a)) == s.(quiz := QuizState(Some(a), false, true, true))
  {
  }

  lemma ExplanationStep(table: Table, s: AppState)
    requires s.nav.screen == Navigation.Quiz && s.quiz.explanationPending
    ensures Step(table, s, ExplanationTimerFires) == s.(quiz := FireExplanation(s.quiz))
  {
  }

  lemma NextStep(table: Table, s: AppState)
    requires Navigation.Valid(s.nav) && s.nav.screen == Navigation.Quiz && s.quiz.showExplanation
    ensures var s' := Step(table, s, NextClicked);
            && (s.nav.index + 1 < |Navigation.Topics| ==>
                  s'.nav.screen == Navigation.Quiz && s'.nav.index == s.nav.index + 1 && s'.quiz == Fresh)
            && (s.nav.index + 1 == |Navigation.Topics| ==> s'.nav.screen == Navigation.Final)
  {
  }

  /** With a table that has an entry for the current topic, answering a fresh
      question, waiting for the explanation and clicking "next" moves on to
      the following question (or to the final screen after the last). */
  lemma AnswerAndNext(table: Table, s: AppState) returns (es: seq<Event>)
    requires WellFormed(table)
    requires Navigation.Valid(s.nav) && s.nav.screen == Navigation.Quiz && s.quiz == Fresh
    requires s.nav.topic in table
    ensures var s' := Run(table, s, es);
            && (s.nav.index + 1 < |Navigation.Topics| ==>
                  s'.nav.screen == Navigation.Quiz && s'.nav.index == s.nav.index + 1 && s'.quiz == Fresh)
            && (s.nav.index + 1 == |Navigation.Topics| ==> s'.nav.screen == Navigation.Final)
  {
    var answers := table[s.nav.topic].answers;
    assert WellFormedEntry(table[s.nav.topic]);
    assert |answers| > 0;
    var a := answers[0].text;
    assert HasAnswer(AnswersFor(table, s.nav.topic), a);
    AnswerStep(table, s, a);
    var s1 := Step(table, s, AnswerClicked(a));
    ExplanationStep(table, s1);
    var s2 := Step(table, s1, ExplanationTimerFires);
    NextStep(table, s2);
    var s3 := Step(table, s2, NextClicked);
    es := [AnswerClicked(a), ExplanationTimerFires, NextClicked];
    assert Run(table, s, es) == s3 by {
      assert es[1..] == [ExplanationTimerFires, NextClicked];
      assert es[1..][1..] == [NextClicked];
      assert Run(table, s2, [NextClicked]) == Run(table, s3, []);
    }
  }

  /** Corrected: every question of the list is reached by some run from the
      start, the last one included. */
  lemma {:induction false} CorrectedReachesEveryTopic(i: nat) returns (es: seq<Event>)
    requires i < |Navigation.Topics|
    ensures var s := Run(CorrectedTable, Init(), es);
            s.nav.screen == Navigation.Quiz && s.nav.index == i && s.quiz == Fresh
              && s.nav.topic == Navigation.Topics[i]
  {
    if i == 0 {
      es := [TopicChosen(Navigation.Topics[0])];
      assert Run(CorrectedTable, Init(), es) == Step(CorrectedTable, Init(), es[0]);
    } else {
      var pre := CorrectedReachesEveryTopic(i - 1);
      var s := Run(CorrectedTable, Init(), pre);
      TablesWellFormed();
      ReachableValid(CorrectedTable, pre);
      DiagnosticTimeTopicFallsBack();
      assert s.nav.topic in CorrectedTable;
      var more := AnswerAndNext(CorrectedTable, s);
      RunAppend(CorrectedTable, Init(), pre, more);
      es := pre + more;
      ReachableValid(CorrectedTable, es);
    }
  }

}

=== FILE: fog.dfy ===
/**
 The fog layer's smoke puffs: how they are created and how one animation
 frame moves and fades each of them. A frame advances the clock; while the
 lights are off, every puff drifts with the noise field, is pushed away from
 and swirled around the spotlight inside the repulsion zone, is pulled back
 toward its home, is damped and moves by its velocity; it is drawn with an
 opacity that fades to nothing at the spotlight's centre.
 */
module Fog {
  import opened FogNoise

  datatype Puff = Puff(
    x: real, y: real,
    vx: real, vy: real,
    homeX: real, homeY: real,
    size: real,
    opacity: real,
    noiseOffsetX: real, noiseOffsetY: real,
    rotation: real, rotationSpeed: real)

  const PuffCount: nat := 80
  /** Clock advance per frame. */
  const TimeStep: real := 0.008
  /** Spotlight radius when none is given. */
  const DefaultRadius: real := 280.0
  /** The repulsion zone is this multiple of the spotlight radius. */
  const RepelFactor: real := 1.8
  const RepelExponent: real := 1.5
  const RepelStrength: real := 4.0
  /** Strength of the tangential swirl relative to the radial push. */
  const SwirlFactor: real := 0.8
  const DriftX: real := 0.06
  const DriftY: real := 0.04
  const HomingRate: real := 0.0006
  const Damping: real := 0.96
  /** The shortest decimal that rounds to the host's `Math.PI`. */
  const Pi: real := 3.141592653589793

  datatype Vec = Vec(x: real, y: real)

  const Zero := Vec(0.0, 0.0)

  // ---------------------------------------------------------------------
  // Creation

  /** The ten random draws, in [0, 1), that create one puff, in the order
      they are drawn. */
  datatype Draws = Draws(
    x: real, y: real, vx: real, vy: real, size: real, opacity: real,
    noiseX: real, noiseY: real, rotation: real, rotationSpeed: real)

  predicate Unit(r: real) {
    0.0 <= r < 1.0
  }

  predicate ValidDraws(d: Draws) {
    && Unit(d.x) && Unit(d.y) && Unit(d.vx) && Unit(d.vy) && Unit(d.size)
    && Unit(d.opacity) && Unit(d.noiseX) && Unit(d.noiseY) && Unit(d.rotation)
    && Unit(d.rotationSpeed)
  }

  /** The appearance every puff is created with and keeps. */
  predicate Shaped(p: Puff) {
    && 140.0 <= p.size < 360.0
    && 0.04 <= p.opacity < 0.13
  }

  /** A draw scaled to a viewport extent: a coordinate inside it. */
  function Scale(r: real, n: nat): (v: real)
    requires Unit(r)
    ensures 0.0 <= v <= n as real
    ensures n > 0 ==> v < n as real
  {
    var w := n as real;
    MulMonotone(0.0, r, w);
    MulMonotone(r, 1.0, w);
    r * w
  }

  /** Multiplying by a non-negative factor keeps order, and by a positive
      factor keeps strict order. */
  lemma MulMonotone(a: real, b: real, c: real)
    requires a <= b && 0.0 <= c
    ensures a * c <= b * c
    ensures a < b && 0.0 < c ==> a * c < b * c
  {
    if a < b && 0.0 < c {
      assert (b - a) * c > 0.0;
    }
  }

  /** One new puff: placed anywhere in the viewport, at home there, with a
      size in [140, 360), a base opacity in [0.04, 0.13) and a small initial
      velocity and spin. */
  function NewPuff(d: Draws, width: nat, height: nat): (p: Puff)
    requires ValidDraws(d)
    ensures p.homeX == p.x && p.homeY == p.y
    ensures Shaped(p)
    ensures 0.0 <= p.x <= width as real && (width > 0 ==> p.x < width as real)
    ensures 0.0 <= p.y <= height as real && (height > 0 ==> p.y < height as real)
    ensures -0.2 <= p.vx < 0.2 && -0.1 <= p.vy < 0.1
    ensures 0.0 <= p.noiseOffsetX < 100.0 && 0.0 <= p.noiseOffsetY < 100.0
    ensures 0.0 <= p.rotation < 2.0 * Pi
    ensures -0.0015 <= p.rotationSpeed < 0.0015
  {
    var x := Scale(d.x, width);
    var y := Scale(d.y, height);
    Puff(
      x, y,
      (d.vx - 0.5) * 0.4, (d.vy - 0.5) * 0.2,
      x, y,
      d.size * 220.0 + 140.0,
      d.opacity * 0.09 + 0.04,
      d.noiseX * 100.0, d.noiseY * 100.0,
      d.rotation * Pi * 2.0,
      (d.rotationSpeed - 0.5) * 0.003)
  }

  /** The initial swarm: eighty puffs, one per set of draws. */
  function InitialPuffs(draws: seq<Draws>, width: nat, height: nat): (r: seq<Puff>)
    requires |draws| == PuffCount
    requires forall i :: 0 <= i < |draws| ==> ValidDraws(draws[i])
    ensures |r| == PuffCount
    ensures forall i :: 0 <= i < |r| ==> Shaped(r[i]) && r[i].homeX == r[i].x && r[i].homeY == r[i].y
    ensures forall i :: 0 <= i < |r| ==> 0.0 <= r[i].x <= width as real && 0.0 <= r[i].y <= height as real
  {
    seq(|draws|, i requires 0 <= i < |draws| => NewPuff(draws[i], width, height))
  }

  // ---------------------------------------------------------------------
  // The forces of one frame

  datatype Spotlight = Spotlight(x: real, y: real, radius: real)

  function RepelZone(radius: real): real {
    radius * RepelFactor
  }

  /** Repulsion acts strictly inside the zone, and not at its exact centre,
      where there is no direction to push along. */
  predicate InRepelZone(dist: real, radius: real) {
    dist < RepelZone(radius) && dist > 0.0
  }

  /** Distance from the spotlight, as the host's square root gives it. */
  function Distance(m: Maths, p: Puff, spot: Spotlight): (d: real)
    requires SqrtNonNegative(m)
    ensures 0.0 <= d
  {
    var dx := p.x - spot.x;
    var dy := p.y - spot.y;
    SquareNonNegative(dx);
    SquareNonNegative(dy);
    m.sqrt(dx * dx + dy * dy)
  }

  /** The noise-driven drift added to the velocity. With bounded sine and
      cosine it changes a velocity component by at most its drift constant
      per frame. */
  function Drift(m: Maths, p: Puff, t: real): (r: Vec)
    ensures TrigBounded(m) ==> -DriftX <= r.x <= DriftX && -DriftY <= r.y <= DriftY
  {
    var nx := Noise(m, p.noiseOffsetX + t, p.noiseOffsetY, t * 0.5);
    var ny := Noise(m, p.noiseOffsetX, p.noiseOffsetY + t, t * 0.5);
    Vec(nx * DriftX, ny * DriftY)
  }

  /** Magnitude of the push at distance `dist` inside the zone. */
  function Force(m: Maths, dist: real, radius: real): real
    requires InRepelZone(dist, radius)
  {
    m.pow(1.0 - dist / RepelZone(radius), RepelExponent) * RepelStrength
  }

  /** Radial push away from the spotlight plus the swirl along the
      perpendicular, for the offset (dx, dy) at distance `dist`. */
  function Repulsion(m: Maths, dx: real, dy: real, dist: real, radius: real): (r: Vec)
    ensures !InRepelZone(dist, radius) ==> r == Zero
  {
    if InRepelZone(dist, radius) then
      var force := Force(m, dist, radius);
      var nx := dx / dist;
      var ny := dy / dist;
      var tx := -ny;
      var ty := nx;
      Vec(nx * force + tx * force * SwirlFactor, ny * force + ty * force * SwirlFactor)
    else
      Zero
  }

  /** Inside the zone, the repulsion splits into a push straight away from
      the spotlight and a swirl along the perpendicular, in the ratio 1 to
      0.8: times the distance, its component along the offset (dx, dy) is
      the force times the squared offset length, and its component along the
      perpendicular (-dy, dx) is 0.8 of that. With `dist` the offset's
      length, these are a push of size `force` and a swirl of size
      `0.8 * force`. */
  lemma RepulsionSplitsIntoPushAndSwirl(m: Maths, dx: real, dy: real, dist: real, radius: real)
    requires InRepelZone(dist, radius)
    ensures var r := Repulsion(m, dx, dy, dist, radius);
            var f := Force(m, dist, radius);
            && (r.x * dx + r.y * dy) * dist == f * (dx * dx + dy * dy)
            && (r.y * dx - r.x * dy) * dist == SwirlFactor * f * (dx * dx + dy * dy)
  {
    var f := Force(m, dist, radius);
    var r := Repulsion(m, dx, dy, dist, radius);
    assert r.x * dist == dx * f - dy * f * SwirlFactor;
    assert r.y * dist == dy * f + dx * f * SwirlFactor;
    assert (r.x * dx + r.y * dy) * dist == (r.x * dist) * dx + (r.y * dist) * dy;
    assert (r.y * dx - r.x * dy) * dist == (r.y * dist) * dx - (r.x * dist) * dy;
  }

  /** Homing, damping and integration, given the drift and repulsion of this
      frame: only position, velocity and rotation change. */
  function Advance(p: Puff, drift: Vec, repel: Vec): (r: Puff)
    ensures r == p.(x := r.x, y := r.y, vx := r.vx, vy := r.vy, rotation := r.rotation)
    ensures r.x == p.x + r.vx && r.y == p.y + r.vy
    ensures r.rotation == p.rotation + p.rotationSpeed
  {
    var vx := (p.vx + drift.x + repel.x + (p.homeX - p.x) * HomingRate) * Damping;
    var vy := (p.vy + drift.y + repel.y + (p.homeY - p.y) * HomingRate) * Damping;
    p.(x := p.x + vx, y := p.y + vy, vx := vx, vy := vy, rotation := p.rotation + p.rotationSpeed)
  }

  /** At home, with no drift or repulsion, the velocity carries over damped
      by 0.96. */
  lemma DampingAtHome(p: Puff)
    requires p.x == p.homeX && p.y == p.homeY
    ensures var r := Advance(p, Zero, Zero);
            r.vx == Damping * p.vx && r.vy == Damping * p.vy
  {
  }

  /** Whatever the forces, the new velocity moves with the old one at the
      damping rate: two puffs that differ only in velocity end the frame
      with velocities that differ by 0.96 times as much. */
  lemma MomentumCarriesOver(p: Puff, vx: real, vy: real, drift: Vec, repel: Vec)
    ensures var r := Advance(p, drift, repel);
            var r' := Advance(p.(vx := vx, vy := vy), drift, repel);
            r.vx - r'.vx == Damping * (p.vx - vx) && r.vy - r'.vy == Damping * (p.vy - vy)
  {
  }

  /** A puff resting at home with no force on it stays there: the home is
      the fixed point of homing, damping and integration. */
  lemma AtRestAtHomeStays(p: Puff)
    requires p.x == p.homeX && p.y == p.homeY && p.vx == 0.0 && p.vy == 0.0
    ensures var r := Advance(p, Zero, Zero);
            r.x == p.x && r.y == p.y && r.vx == 0.0 && r.vy == 0.0
  {
  }

  /** Without forces, a puff at rest away from its home moves toward it: the
      velocity after the frame is a positive multiple of the offset to home,
      small enough that neither coordinate passes home. */
  lemma HomingPullsBack(p: Puff)
    requires p.vx == 0.0 && p.vy == 0.0
    ensures var r := Advance(p, Zero, Zero);
            && r.vx == (p.homeX - p.x) * (HomingRate * Damping)
            && r.vy == (p.homeY - p.y) * (HomingRate * Damping)
            && (p.x < p.homeX ==> p.x < r.x < p.homeX)
            && (p.homeX < p.x ==> p.homeX < r.x < p.x)
            && (p.y < p.homeY ==> p.y < r.y < p.homeY)
            && (p.homeY < p.y ==> p.homeY < r.y < p.y)
  {
  }

  // ---------------------------------------------------------------------
  // Opacity

  lemma RatioBelowOne(a: real, b: real)
    requires 0.0 <= a < b
    ensures 0.0 <= a / b < 1.0
  {
  }

  lemma DivMonotone(a: real, b: real, c: real)
    requires 0.0 <= a <= b && 0.0 < c
    ensures 0.0 <= a / c <= b / c
  {
    assert b / c - a / c == (b - a) / c;
  }

  function Square(v: real): real {
    v * v
  }

  lemma SquareNonNegative(v: real)
    ensures 0.0 <= v * v
  {
    if v < 0.0 {
      MulMonotone(v, 0.0, -v);
      assert v * -v <= 0.0;
    } else {
      MulMonotone(0.0, v, v);
    }
  }

  lemma SquareMonotone(a: real, b: real)
    requires 0.0 <= a <= b
    ensures 0.0 <= Square(a) <= Square(b)
  {
    MulMonotone(0.0, a, a);
    MulMonotone(a, b, a);
    MulMonotone(a, b, b);
  }

  /** Scaling a non-negative base by a factor in [0, 1] stays in [0, base]. */
  lemma ScaleWithinBase(base: real, f: real)
    requires 0.0 <= f <= 1.0
    ensures 0.0 <= base ==> 0.0 <= f * base <= base
  {
    if 0.0 <= base {
      MulMonotone(0.0, f, base);
      MulMonotone(f, 1.0, base);
    }
  }

  /** Attenuation by the square of a relative distance in [0, 1]. */
  function Attenuate(base: real, rel: real): (r: real)
    requires 0.0 <= rel <= 1.0
    ensures 0.0 <= base ==> 0.0 <= r <= base
    ensures rel == 0.0 ==> r == 0.0
  {
    var sq := Square(rel);
    SquareMonotone(rel, 1.0);
    ScaleWithinBase(base, sq);
    sq * base
  }

  lemma AttenuateMonotone(base: real, r1: real, r2: real)
    requires 0.0 <= base && 0.0 <= r1 <= r2 <= 1.0
    ensures Attenuate(base, r1) <= Attenuate(base, r2)
  {
    var s1, s2 := Square(r1), Square(r2);
    SquareMonotone(r1, r2);
    MulMonotone(s1, s2, base);
    calc {
      Attenuate(base, r1);
    ==
      s1 * base;
    <=
      s2 * base;
    ==
      Attenuate(base, r2);
    }
  }

  /** The opacity a puff is drawn with: its base opacity outside the
      spotlight, fading with the square of the relative distance inside. */
  function Faded(base: real, dist: real, radius: real): (r: real)
    requires 0.0 <= dist
    ensures 0.0 <= base ==> 0.0 <= r <= base
    ensures radius <= dist ==> r == base
    ensures dist == 0.0 && 0.0 < radius ==> r == 0.0
  {
    if dist < radius then
      RatioBelowOne(dist, radius);
      Attenuate(base, dist / radius)
    else
      base
  }

  /** The fade never decreases as the puff moves away from the spotlight's
      centre. */
  lemma FadeMonotone(base: real, d1: real, d2: real, radius: real)
    requires 0.0 <= base && 0.0 <= d1 <= d2
    ensures Faded(base, d1, radius) <= Faded(base, d2, radius)
  {
    if d2 < radius {
      RatioBelowOne(d2, radius);
      DivMonotone(d1, d2, radius);
      AttenuateMonotone(base, d1 / radius, d2 / radius);
    }
  }

  // ---------------------------------------------------------------------
  // One frame

  datatype Drawn = Drawn(puff: Puff, opacity: real)

  /** One puff in one frame, at clock `t`. The opacity is taken from the
      distance before the puff moves. */
  function PuffUpdate(m: Maths, p: Puff, t: real, spot: Spotlight): (r: Drawn)
    requires SqrtNonNegative(m)
    ensures Shaped(p) ==> Shaped(r.puff)
    ensures r.puff.homeX == p.homeX && r.puff.homeY == p.homeY && r.puff.size == p.size
    ensures r.puff.opacity == p.opacity && r.puff.rotationSpeed == p.rotationSpeed
    ensures r.puff.noiseOffsetX == p.noiseOffsetX && r.puff.noiseOffsetY == p.noiseOffsetY
    ensures r.opacity == Faded(p.opacity, Distance(m, p, spot), spot.radius)
    ensures 0.0 <= p.opacity ==> 0.0 <= r.opacity <= p.opacity
    ensures !InRepelZone(Distance(m, p, spot), spot.radius) ==>
              r.puff == Advance(p, Drift(m, p, t), Zero)
    ensures InRepelZone(Distance(m, p, spot), spot.radius) ==>
              r.puff == Advance(p, Drift(m, p, t),
                                Repulsion(m, p.x - spot.x, p.y - spot.y, Distance(m, p, spot), spot.radius))
  {
    var dist := Distance(m, p, spot);
    var repel := Repulsion(m, p.x - spot.x, p.y - spot.y, dist, spot.radius);
    Drawn(Advance(p, Drift(m, p, t), repel), Faded(p.opacity, dist, spot.radius))
  }

  datatype FogState = FogState(time: real, puffs: seq<Puff>)

  /** What one frame leaves behind: the new state and the opacity each puff
      was drawn with (nothing is drawn while the lights are on). */
  datatype FrameResult = FrameResult(state: FogState, drawn: seq<real>)

  function Frame(m: Maths, s: FogState, lightsOn: bool, spot: Spotlight): (r: FrameResult)
    requires SqrtNonNegative(m)
    ensures r.state.time == s.time + TimeStep
    ensures lightsOn ==> r.state.puffs == s.puffs && r.drawn == []
    ensures |r.state.puffs| == |s.puffs|
    ensures !lightsOn ==> |r.drawn| == |s.puffs|
    ensures !lightsOn ==> forall i :: 0 <= i < |s.puffs| ==>
              Drawn(r.state.puffs[i], r.drawn[i]) == PuffUpdate(m, s.puffs[i], s.time + TimeStep, spot)
    ensures !lightsOn ==> forall i :: 0 <= i < |s.puffs| && 0.0 <= s.puffs[i].opacity ==>
              0.0 <= r.drawn[i] <= s.puffs[i].opacity
    ensures forall i :: 0 <= i < |s.puffs| ==>
              && r.state.puffs[i].homeX == s.puffs[i].homeX
              && r.state.puffs[i].homeY == s.puffs[i].homeY
              && r.state.puffs[i].size == s.puffs[i].size
              && r.state.puffs[i].opacity == s.puffs[i].opacity
              && r.state.puffs[i].noiseOffsetX == s.puffs[i].noiseOffsetX
              && r.state.puffs[i].noiseOffsetY == s.puffs[i].noiseOffsetY
              && r.state.puffs[i].rotationSpeed == s.puffs[i].rotationSpeed
  {
    var t := s.time + TimeStep;
    if lightsOn then
      FrameResult(FogState(t, s.puffs), [])
    else
      var drawn := seq(|s.puffs|, i requires 0 <= i < |s.puffs| => PuffUpdate(m, s.puffs[i], t, spot));
      FrameResult(
        FogState(t, seq(|drawn|, i requires 0 <= i < |drawn| => drawn[i].puff)),
        seq(|drawn|, i requires 0 <= i < |drawn| => drawn[i].opacity))
  }

  /** What the host supplies to one frame: the lights switch and the
      spotlight's centre as they are when the frame runs. */
  datatype FrameInput = FrameInput(lightsOn: bool, x: real, y: real)

  /** One run of the animation loop. The spotlight radius is fixed for the
      run: a new radius ends the loop and starts a new swarm. */
  function Frames(m: Maths, s: FogState, radius: real, ins: seq<FrameInput>): FogState
    requires SqrtNonNegative(m)
    decreases |ins|
  {
    if ins == [] then s
    else Frames(m, Frame(m, s, ins[0].lightsOn, Spotlight(ins[0].x, ins[0].y, radius)).state, radius, ins[1..])
  }

  /** Over any run of frames the swarm keeps its size, every puff keeps its
      home and its appearance, and the clock advances by one step per frame. */
  lemma {:induction false} FramesKeepSwarm(m: Maths, s: FogState, radius: real, ins: seq<FrameInput>)
    requires SqrtNonNegative(m)
    requires forall i :: 0 <= i < |s.puffs| ==> Shaped(s.puffs[i])
    ensures var r := Frames(m, s, radius, ins);
            && |r.puffs| == |s.puffs|
            && r.time == s.time + |ins| as real * TimeStep
            && forall i :: 0 <= i < |s.puffs| ==>
                 Shaped(r.puffs[i]) && r.puffs[i].homeX == s.puffs[i].homeX && r.puffs[i].homeY == s.puffs[i].homeY
    decreases |ins|
  {
    if ins != [] {
      var s' := Frame(m, s, ins[0].lightsOn, Spotlight(ins[0].x, ins[0].y, radius)).state;
      assert forall i :: 0 <= i < |s'.puffs| ==> Shaped(s'.puffs[i]);
      FramesKeepSwarm(m, s', radius, ins[1..]);
    }
  }

  /** A puff exactly under the spotlight's centre is invisible and not
      pushed; a puff two radii away (outside the 1.8-radius zone) is drawn
      at its base opacity and not pushed either. */
  lemma CentreAndFarPuffs(m: Maths, p: Puff, t: real)
    requires SqrtNonNegative(m)
    requires m.sqrt(0.0) == 0.0 && m.sqrt(313600.0) == 560.0
    ensures var spot := Spotlight(400.0, 300.0, DefaultRadius);
            var r := PuffUpdate(m, p.(x := 400.0, y := 300.0), t, spot);
            r.opacity == 0.0 && r.puff == Advance(p.(x := 400.0, y := 300.0), Drift(m, p, t), Zero)
    ensures var spot := Spotlight(400.0, 300.0, DefaultRadius);
            var r := PuffUpdate(m, p.(x := 400.0, y := 860.0), t, spot);
            r.opacity == p.opacity && r.puff == Advance(p.(x := 400.0, y := 860.0), Drift(m, p, t), Zero)
  {
    var spot := Spotlight(400.0, 300.0, DefaultRadius);
    var near := p.(x := 400.0, y := 300.0);
    var far := p.(x := 400.0, y := 860.0);
    assert Distance(m, near, spot) == 0.0;
    assert Distance(m, far, spot) == 560.0;
    assert Drift(m, near, t) == Drift(m, p, t);
    assert Drift(m, far, t) == Drift(m, p, t);
  }

}

=== FILE: fog_noise.dfy ===
/**
 The fog's noise function: its three coordinates are cut to integer lattice
 cells reduced to one byte, and a product of sines and cosines of those
 cells is returned. The trigonometric functions (and the square root and
 power the fog update uses) are not computed here: they are parameters.
 */
module FogNoise {

  /** The host's transcendental functions. */
  datatype Maths = Maths(
    sin: real -> real,
    cos: real -> real,
    sqrt: real -> real,
    pow: (real, real) -> real)

  /** Sine and cosine take values in [-1, 1]. */
  ghost predicate TrigBounded(m: Maths) {
    && (forall v :: -1.0 <= m.sin(v) <= 1.0)
    && (forall v :: -1.0 <= m.cos(v) <= 1.0)
  }

  /** Square roots of non-negative numbers are never negative. */
  ghost predicate SqrtNonNegative(m: Maths) {
    forall v :: 0.0 <= v ==> 0.0 <= m.sqrt(v)
  }

  /** The lattice cell of a coordinate, as one byte: the floor of `v` masked
      with 255, which for an integer equals its non-negative remainder
      modulo 256. */
  function Lattice(v: real): (r: int)
    ensures 0 <= r < 256
    ensures (v.Floor - r) % 256 == 0
  {
    v.Floor % 256
  }

  /** The noise of a lattice cell. */
  function CellNoise(m: Maths, X: real, Y: real, T: real): real {
    m.sin(X * 0.1 + T * 0.05) * m.cos(Y * 0.1 + T * 0.03) * m.sin((X + Y) * 0.07 + T * 0.04)
  }

  /** The noise at a point: the noise of its lattice cell. With sine and
      cosine in [-1, 1], so is the noise, a product of three of them. */
  function Noise(m: Maths, x: real, y: real, t: real): (r: real)
    ensures TrigBounded(m) ==> -1.0 <= r <= 1.0
  {
    var X, Y, T := Lattice(x) as real, Lattice(y) as real, Lattice(t) as real;
    assert TrigBounded(m) ==> -1.0 <= CellNoise(m, X, Y, T) <= 1.0 by {
      if TrigBounded(m) {
        CellNoiseBounded(m, X, Y, T);
      }
    }
    CellNoise(m, X, Y, T)
  }

  lemma FloorShift(v: real)
    ensures (v + 256.0).Floor == v.Floor + 256
  {
  }

  /** The lattice repeats every 256 units. */
  lemma LatticePeriodic(v: real)
    ensures Lattice(v + 256.0) == Lattice(v)
  {
    FloorShift(v);
    assert (v.Floor + 256) % 256 == v.Floor % 256;
  }

  /** Noise is constant on each unit cell of the lattice... */
  lemma NoiseCellwise(m: Maths, x: real, y: real, t: real, x': real, y': real, t': real)
    requires x.Floor == x'.Floor && y.Floor == y'.Floor && t.Floor == t'.Floor
    ensures Noise(m, x, y, t) == Noise(m, x', y', t')
  {
  }

  /** ... and periodic with period 256 in each coordinate. */
  lemma NoisePeriodic(m: Maths, x: real, y: real, t: real)
    ensures Noise(m, x + 256.0, y, t) == Noise(m, x, y, t)
    ensures Noise(m, x, y + 256.0, t) == Noise(m, x, y, t)
    ensures Noise(m, x, y, t + 256.0) == Noise(m, x, y, t)
  {
    LatticePeriodic(x);
    LatticePeriodic(y);
    LatticePeriodic(t);
  }

  lemma ProductInUnit(a: real, b: real)
    requires -1.0 <= a <= 1.0 && -1.0 <= b <= 1.0
    ensures -1.0 <= a * b <= 1.0
  {
    if a >= 0.0 {
      if b >= 0.0 {
        assert a * b <= 1.0 * b;
      } else {
        assert a * b >= a * -1.0;
      }
    } else {
      if b >= 0.0 {
        assert a * b >= -1.0 * b;
      } else {
        assert a * b <= -1.0 * b;
      }
    }
  }

  lemma ProductOfThreeInUnit(a: real, b: real, c: real)
    requires -1.0 <= a <= 1.0 && -1.0 <= b <= 1.0 && -1.0 <= c <= 1.0
    ensures -1.0 <= a * b * c <= 1.0
  {
    ProductInUnit(a, b);
    ProductInUnit(a * b, c);
  }

  lemma CellNoiseBounded(m: Maths, X: real, Y: real, T: real)
    requires TrigBounded(m)
    ensures -1.0 <= CellNoise(m, X, Y, T) <= 1.0
  {
    ProductOfThreeInUnit(m.sin(X * 0.1 + T * 0.05), m.cos(Y * 0.1 + T * 0.03), m.sin((X + Y) * 0.07 + T * 0.04));
  }

}

=== FILE: navigation.dfy ===
/**
 Screen navigation of the quiz application: which screen is shown, which topic
 the quiz screen asks about and the position of that topic in the fixed topic
 list. The five handlers of the top-level component are pure transitions here.
 */
module Navigation {

  datatype Screen = Landing | Quiz | Final

  /** The quiz topics, in the order "next question" walks them. */
  const Topics: seq<string> := [
    "What Is ADH1?",
    "Mechanism of Disease",
    "Average Diagnostic Time",
    "Clinical Presentation",
    "Confirming Diagnosis",
    "Limitations of Conventional Therapy"
  ]

  datatype NavState = NavState(screen: Screen, topic: string, index: nat)

  /** What every reachable navigation state satisfies: the index points into
      the topic list, and once the quiz has moved past its first question the
      topic is the one the index names. */
  ghost predicate Valid(s: NavState) {
    && s.index < |Topics|
    && (s.index > 0 ==> s.topic == Topics[s.index])
  }

  function Initial(): (s: NavState)
    ensures Valid(s)
    ensures s.screen == Landing && s.topic == [] && s.index == 0
  {
    NavState(Landing, "", 0)
  }

  /** Choosing a topic on the landing screen opens the quiz on that topic,
      always at index 0, whatever the topic's position in the list. */
  function TopicSelect(s: NavState, topic: string): (r: NavState)
    ensures Valid(r)
    ensures r.screen == Quiz && r.topic == topic && r.index == 0
  {
    NavState(Quiz, topic, 0)
  }

  /** The quiz's auto-advance: only the screen changes. */
  function QuizComplete(s: NavState): (r: NavState)
    ensures Valid(s) ==> Valid(r)
    ensures r.screen == Final && r.topic == s.topic && r.index == s.index
  {
    s.(screen := Final)
  }

  /** Moves to the next topic of the list, or to the final screen after the last. */
  function NextQuestion(s: NavState): (r: NavState)
    ensures Valid(s) ==> Valid(r)
    ensures s.index + 1 < |Topics| ==> r == NavState(s.screen, Topics[s.index + 1], s.index + 1)
    ensures s.index + 1 >= |Topics| ==> r == s.(screen := Final)
  {
    var next := s.index + 1;
    if next < |Topics| then
      s.(topic := Topics[next], index := next)
    else
      s.(screen := Final)
  }

  function BackToStart(s: NavState): (r: NavState)
    ensures r == Initial()
  {
    NavState(Landing, "", 0)
  }

  function Restart(s: NavState): (r: NavState)
    ensures r == Initial()
  {
    NavState(Landing, "", 0)
  }

  /** Back-to-start and restart are one transition, and applying it again
      changes nothing. */
  lemma BackToStartIsRestartAndIdempotent(s: NavState)
    ensures BackToStart(s) == Restart(s)
    ensures BackToStart(BackToStart(s)) == BackToStart(s)
    ensures Restart(Restart(s)) == Restart(s)
  {
  }

  /** The handlers as events, so that runs of them can be stated. */
  datatype NavEvent = SelectTopic(topic: string) | Complete | Next | Back | RestartQuiz

  function Apply(s: NavState, e: NavEvent): NavState {
    match e
    case SelectTopic(t) => TopicSelect(s, t)
    case Complete => QuizComplete(s)
    case Next => NextQuestion(s)
    case Back => BackToStart(s)
    case RestartQuiz => Restart(s)
  }

  function Run(s: NavState, es: seq<NavEvent>): NavState
    decreases |es|
  {
    if es == [] then s else Run(Apply(s, es[0]), es[1..])
  }

  /** Every state reached from a valid one by any sequence of handler calls
      is valid; in particular every state reachable from the initial one. */
  lemma {:induction false} RunPreservesValid(s: NavState, es: seq<NavEvent>)
    requires Valid(s)
    ensures Valid(Run(s, es))
    decreases |es|
  {
    if es != [] {
      var s' := Apply(s, es[0]);
      assert Valid(s') by {
        match es[0]
        case SelectTopic(t) =>
        case Complete =>
        case Next =>
        case Back =>
        case RestartQuiz =>
      }
      RunPreservesValid(s', es[1..]);
    }
  }

  lemma ReachableIsValid(es: seq<NavEvent>)
    ensures Valid(Run(Initial(), es))
    ensures 0 <= Run(Initial(), es).index <= 5
  {
    RunPreservesValid(Initial(), es);
  }

  /** `n` consecutive next-question events. */
  function NextN(s: NavState, n: nat): NavState
    decreases n
  {
    if n == 0 then s else NextN(NextQuestion(s), n - 1)
  }

  /** From any valid quiz state, the next-question events before the last
      stay on the quiz screen, and the `|Topics| - index`-th (at most six)
      reaches the final screen, on the last topic. */
  lemma {:induction false} NextReachesFinal(s: NavState, k: nat)
    requires Valid(s) && s.screen == Quiz
    ensures |Topics| - s.index <= 6
    ensures k < |Topics| - s.index ==> NextN(s, k).screen == Quiz && NextN(s, k).index == s.index + k
    ensures NextN(s, |Topics| - s.index).screen == Final
    ensures NextN(s, |Topics| - s.index).index == |Topics| - 1
    decreases |Topics| - s.index
  {
    var s' := NextQuestion(s);
    if s.index + 1 < |Topics| {
      assert s'.screen == Quiz && s'.index == s.index + 1 && Valid(s');
      NextReachesFinal(s', if k == 0 then 0 else k - 1);
      assert NextN(s, |Topics| - s.index) == NextN(s', |Topics| - s'.index);
      if 0 < k < |Topics| - s.index {
        assert NextN(s, k) == NextN(s', k - 1);
      }
    } else {
      assert NextN(s, 1) == NextN(s', 0);
    }
  }

}

=== FILE: options.dfy ===
/** The usual Some/None datatype, used where the source has `undefined` or `null`. */
module Options {

  datatype Option<+T> = None | Some(value: T)

}

=== FILE: quiz.dfy ===
/**
 Local state of one mounted quiz screen: the selected answer, whether the
 explanation is shown, and the two timers a selection arms (the explanation
 timer and the auto-advance timer). Timers are pending flags; their firing is
 an event. Handlers return the new local state and the callback they invoke
 on the navigation layer, if any.
 */
module Quiz {
  import opened Options
  import opened QuizData

  datatype QuizState = QuizState(
    selected: Option<string>,
    showExplanation: bool,
    explanationPending: bool,
    autoAdvancePending: bool)

  /** The state of a freshly mounted quiz screen. */
  const Fresh := QuizState(None, false, false, false)

  /** The callbacks a quiz screen can invoke. */
  datatype Callback = NoCallback | OnComplete | OnNext | OnBackToStart

  datatype Reaction = Reaction(state: QuizState, callback: Callback)

  /** Truthiness of the selection as a script condition reads it: nothing
      selected and an empty text are both "no selection". */
  predicate Selected(sel: Option<string>) {
    sel.Some? && sel.value != []
  }

  /** Clicking an answer: the first selection records the answer and arms
      both timers; once an answer is selected, a further click changes
      nothing. */
  function SelectAnswer(q: QuizState, answer: string): (r: QuizState)
    ensures Selected(q.selected) ==> r == q
    ensures !Selected(q.selected) ==>
              && r.selected == Some(answer)
              && r.explanationPending && r.autoAdvancePending
              && r.showExplanation == q.showExplanation
    ensures answer != [] ==> Selected(r.selected)
  {
    if !Selected(q.selected) then
      q.(selected := Some(answer), explanationPending := true, autoAdvancePending := true)
    else
      q
  }

  /** The explanation timer firing shows the explanation. */
  function FireExplanation(q: QuizState): (r: QuizState)
    ensures r.selected == q.selected && r.autoAdvancePending == q.autoAdvancePending
    ensures !r.explanationPending
    ensures r.showExplanation <==> q.showExplanation || q.explanationPending
  {
    if q.explanationPending then q.(showExplanation := true, explanationPending := false) else q
  }

  /** The auto-advance timer firing calls the completion callback, if it is
      still pending. */
  function FireAutoAdvance(q: QuizState): (r: Reaction)
    ensures r.callback == OnComplete <==> q.autoAdvancePending
    ensures r.callback == NoCallback <==> !q.autoAdvancePending
    ensures !r.state.autoAdvancePending
    ensures r.state.explanationPending == q.explanationPending
    ensures r.state.selected == q.selected && r.state.showExplanation == q.showExplanation
  {
    if q.autoAdvancePending then Reaction(q.(autoAdvancePending := false), OnComplete)
    else Reaction(q, NoCallback)
  }

  /** "Next question": cancel the auto-advance timer, then call next. */
  function ClickNext(q: QuizState): (r: Reaction)
    ensures r.callback == OnNext
    ensures !r.state.autoAdvancePending
    ensures r.state == q.(autoAdvancePending := false)
  {
    Reaction(q.(autoAdvancePending := false), OnNext)
  }

  /** The close button: cancel the auto-advance timer, then go back to start. */
  function ClickBack(q: QuizState): (r: Reaction)
    ensures r.callback == OnBackToStart
    ensures !r.state.autoAdvancePending
    ensures r.state == q.(autoAdvancePending := false)
  {
    Reaction(q.(autoAdvancePending := false), OnBackToStart)
  }

  /** Unmounting clears the auto-advance timer. The explanation timer is not
      cleared; it would only set state of a screen that no longer exists. */
  function Unmount(q: QuizState): (r: QuizState)
    ensures !r.autoAdvancePending
    ensures r.explanationPending == q.explanationPending
  {
    q.(autoAdvancePending := false)
  }

  /** After "next", "close" or unmounting, the completion callback can no
      longer fire: the auto-advance timer fires into nothing. */
  lemma NoCompletionAfterCancel(q: QuizState)
    ensures FireAutoAdvance(ClickNext(q).state).callback == NoCallback
    ensures FireAutoAdvance(ClickBack(q).state).callback == NoCallback
    ensures FireAutoAdvance(Unmount(q)).callback == NoCallback
  {
  }

  /** A run of answer clicks. */
  function SelectAll(q: QuizState, answers: seq<string>): QuizState
    decreases |answers|
  {
    if answers == [] then q else SelectAll(SelectAnswer(q, answers[0]), answers[1..])
  }

  /** A second selection, once an answer is selected, changes neither the
      selection nor the timers. */
  lemma {:induction false} OnlyFirstSelectionCounts(q: QuizState, first: string, later: seq<string>)
    requires first != []
    ensures var q1 := SelectAnswer(q, first);
            SelectAll(q1, later) == q1
    decreases |later|
  {
    var q1 := SelectAnswer(q, first);
    if later != [] {
      assert SelectAnswer(q1, later[0]) == q1;
      OnlyFirstSelectionCounts(q, first, later[1..]);
    }
  }

  // ---------------------------------------------------------------------
  // What an answer button looks like, given the selection

  /** Answer buttons take clicks only while nothing is selected. */
  predicate ButtonsDisabled(q: QuizState) {
    Selected(q.selected)
  }

  /** The spotlight overlays are drawn only while nothing is selected. */
  predicate SpotlightShown(q: QuizState) {
    !Selected(q.selected)
  }

  predicate IsSelected(sel: Option<string>, a: Answer) {
    sel == Some(a.text)
  }

  /** Dimming: the correct answer is never dimmed, nothing is dimmed before a
      selection, a dimmed answer keeps the grey border of an unselected one,
      and with a selection every other incorrect answer is dimmed. */
  predicate ShouldDim(sel: Option<string>, a: Answer): (r: bool)
    ensures a.correct ==> !r
    ensures !Selected(sel) ==> !r
    ensures r ==> BorderClasses(sel, a) == {Grey}
    ensures Selected(sel) && !a.correct && sel.value != a.text ==> r
  {
    Selected(sel) && !a.correct && !IsSelected(sel, a)
  }

  datatype Border = Gold | Red | Grey

  /** The border classes of an answer button: each of three conditions adds
      its class. */
  function BorderClasses(sel: Option<string>, a: Answer): (r: set<Border>)
    ensures |r| == 1
    ensures Gold in r <==> IsSelected(sel, a) && a.correct
    ensures Red in r <==> IsSelected(sel, a) && !a.correct
    ensures Grey in r <==> !IsSelected(sel, a)
  {
    (if IsSelected(sel, a) && a.correct then {Gold} else {})
      + (if IsSelected(sel, a) && !a.correct then {Red} else {})
      + (if !IsSelected(sel, a) then {Grey} else {})
  }

}

=== FILE: quiz_data.dfy ===
/**
 The question table of the quiz screen: per topic one question, its answers
 (each marked correct or not) and an explanation, together with the lookup
 that falls back to a fixed question when the topic is not a key.
 */
module QuizData {
  import opened Options
  import Navigation

  datatype Answer = Answer(text: string, correct: bool)

  datatype Entry = Entry(question: string, answers: seq<Answer>, explanation: string)

  type Table = map<string, Entry>

  /** Shown when the topic has no entry. */
  const FallbackQuestion: string := "What is the average diagnostic time for patients living with ADH1?"
  const FallbackExplanation: string :=
    "There is a 20-plus-year gap between median age of diagnosis for hypocalcemia-related disorder (4 years) and genetic confirmation of ADH1 (25 years)."

  const WhatIsEntry := Entry(
    "What is autosomal dominant hypocalcemia type 1 (ADH1)?",
    [ Answer("A rare genetic condition caused by gain-of-function variants in the calcium-sensing receptor gene (CASR).", true),
      Answer("A condition caused by low calcium intake", false),
      Answer("An autoimmune form of hypoparathyroidism", false) ],
    "In ADH1, overactive calcium-sensing receptor (CaSR) causes dysregulation of calcium homeostasis.")

  const MechanismEntry := Entry(
    "Which statement describes how the mechanism of disease in ADH1 is distinct from other forms of hypoparathyroidism?",
    [ Answer("ADH1 is solely a kidney-related condition.", false),
      Answer("ADH1 is caused by parathyroid gland injury.", false),
      Answer("In ADH1, the body misreads calcium levels due to malfunction of the CASR gene.", true) ],
    "In ADH1, the calcium-sensing receptor is too sensitive, 'tricking' the body into believing low calcium levels are normal or high. As a result, PTH production decreases and the kidneys spill excess calcium.")

  const DiagnosisTimeEntry := Entry(
    "True or False: ADH1 is typically diagnosed at birth.",
    [ Answer("True", false),
      Answer("False", true) ],
    "There is a 20-plus-year gap between median age of hypocalcemia diagnosis (4 years) and genetic confirmation of ADH1 (25 years).")

  const PresentationEntry := Entry(
    "What are the most common physical symptoms of ADH1?",
    [ Answer("Numbness, fatigue, tetany", true),
      Answer("Restless legs and anxiety", false),
      Answer("Paresthesia and insomnia", false) ],
    "A common sign of ADH1 is low serum calcium, resulting in muscle cramps and spasms (tetany), and in severe cases seizures, laryngospasms, and arrhythmias.")

  const ConfirmingEntry := Entry(
    "How is a diagnosis of ADH1 definitively confirmed?",
    [ Answer("Kidney ultrasound showing nephrocalcinosis", false),
      Answer("Parathyroid hormone (PTH) test and 24-hour urine test", false),
      Answer("Genetic testing", true) ],
    "Genetic testing of the calcium-sensing receptor gene (CASR) can confirm a diagnosis of ADH1.")

  const TherapyEntry := Entry(
    "True or False: Conventional therapy for hypoparathyroidism (calcium supplements and activated Vitamin D) also effectively treats ADH1.",
    [ Answer("True", false),
      Answer("False", true) ],
    "Conventional therapy does not address the underlying CaSR dysfunction in ADH1. It may exacerbate hypercalciuria and contribute to long-term renal complications such as kidney stones, calcification, and kidney failure.")

  /** The table as the quiz screen writes it. Its third key differs from the
      third topic of the navigation list. */
  const SourceTable: Table := map[
    "What Is ADH1?" := WhatIsEntry,
    "Mechanism of Disease" := MechanismEntry,
    "Average Time to Diagnosis" := DiagnosisTimeEntry,
    "Clinical Presentation" := PresentationEntry,
    "Confirming Diagnosis" := ConfirmingEntry,
    "Limitations of Conventional Therapy" := TherapyEntry
  ]

  /** The same table keyed by the navigation list's own topic names. */
  const CorrectedTable: Table := map[
    "What Is ADH1?" := WhatIsEntry,
    "Mechanism of Disease" := MechanismEntry,
    "Average Diagnostic Time" := DiagnosisTimeEntry,
    "Clinical Presentation" := PresentationEntry,
    "Confirming Diagnosis" := ConfirmingEntry,
    "Limitations of Conventional Therapy" := TherapyEntry
  ]

  function Lookup(table: Table, topic: string): Option<Entry> {
    if topic in table then Some(table[topic]) else None
  }

  /** The answer buttons shown for a topic: none when the topic is unknown. */
  function AnswersFor(table: Table, topic: string): (r: seq<Answer>)
    ensures topic !in table ==> r == []
    ensures topic in table ==> r == table[topic].answers
  {
    match Lookup(table, topic)
    case Some(e) => e.answers
    case None => []
  }

  function QuestionFor(table: Table, topic: string): (r: string)
    ensures topic !in table ==> r == FallbackQuestion
    ensures topic in table ==> r == table[topic].question
  {
    match Lookup(table, topic)
    case Some(e) => e.question
    case None => FallbackQuestion
  }

  function ExplanationFor(table: Table, topic: string): (r: string)
    ensures topic !in table ==> r == FallbackExplanation
    ensures topic in table ==> r == table[topic].explanation
  {
    match Lookup(table, topic)
    case Some(e) => e.explanation
    case None => FallbackExplanation
  }

  /** How many of the answers are marked correct. */
  function CorrectCount(answers: seq<Answer>): (n: nat)
    ensures n <= |answers|
    ensures n == 0 <==> forall i :: 0 <= i < |answers| ==> !answers[i].correct
  {
    if answers == [] then 0
    else (if answers[0].correct then 1 else 0) + CorrectCount(answers[1..])
  }

  /** Exactly one answer is correct, and it sits at position `k`. */
  lemma {:induction false} SingleCorrect(answers: seq<Answer>, k: nat)
    requires k < |answers| && answers[k].correct
    requires forall i :: 0 <= i < |answers| && i != k ==> !answers[i].correct
    ensures CorrectCount(answers) == 1
    decreases |answers|
  {
    if k == 0 {
      assert forall i :: 0 <= i < |answers[1..]| ==> !answers[1..][i].correct by {
        forall i | 0 <= i < |answers[1..]| ensures !answers[1..][i].correct {
          assert answers[1..][i] == answers[i + 1];
        }
      }
    } else {
      assert !answers[0].correct;
      assert answers[1..][k - 1] == answers[k];
      forall i | 0 <= i < |answers[1..]| && i != k - 1 ensures !answers[1..][i].correct {
        assert answers[1..][i] == answers[i + 1];
      }
      SingleCorrect(answers[1..], k - 1);
    }
  }

  /** The answer texts serve as identity and as rendering key, so they must
      differ pairwise; none of them is empty (an empty selection would read
      as "nothing selected"). */
  predicate DistinctTexts(answers: seq<Answer>) {
    forall i, j :: 0 <= i < j < |answers| ==> answers[i].text != answers[j].text
  }

  predicate NonEmptyTexts(answers: seq<Answer>) {
    forall i :: 0 <= i < |answers| ==> answers[i].text != []
  }

  predicate WellFormedEntry(e: Entry) {
    && CorrectCount(e.answers) == 1
    && DistinctTexts(e.answers)
    && NonEmptyTexts(e.answers)
  }

  predicate WellFormed(table: Table) {
    forall topic :: topic in table ==> WellFormedEntry(table[topic])
  }

  lemma WhatIsWellFormed()
    ensures WellFormedEntry(WhatIsEntry)
  {
    var a := WhatIsEntry.answers;
    SingleCorrect(a, 0);
    assert |a[0].text| == 105 && |a[1].text| == 40 && |a[2].text| == 40;
    assert a[1].text[1] != a[2].text[1];
  }

  lemma MechanismWellFormed()
    ensures WellFormedEntry(MechanismEntry)
  {
    var a := MechanismEntry.answers;
    SingleCorrect(a, 2);
    assert |a[0].text| == 42 && |a[1].text| == 43 && |a[2].text| == 78;
  }

  lemma DiagnosisTimeWellFormed()
    ensures WellFormedEntry(DiagnosisTimeEntry)
  {
    var a := DiagnosisTimeEntry.answers;
    SingleCorrect(a, 1);
    assert |a[0].text| == 4 && |a[1].text| == 5;
  }

  lemma PresentationWellFormed()
    ensures WellFormedEntry(PresentationEntry)
  {
    var a := PresentationEntry.answers;
    SingleCorrect(a, 0);
    assert |a[0].text| == 25 && |a[1].text| == 25 && |a[2].text| == 24;
    assert a[0].text[0] != a[1].text[0];
  }

  lemma ConfirmingWellFormed()
    ensures WellFormedEntry(ConfirmingEntry)
  {
    var a := ConfirmingEntry.answers;
    SingleCorrect(a, 2);
    assert |a[0].text| == 42 && |a[1].text| == 53 && |a[2].text| == 15;
  }

  lemma TherapyWellFormed()
    ensures WellFormedEntry(TherapyEntry)
  {
    var a := TherapyEntry.answers;
    SingleCorrect(a, 1);
    assert |a[0].text| == 4 && |a[1].text| == 5;
  }

  /** Every entry of both tables has exactly one correct answer and pairwise
      distinct, non-empty answer texts. */
  lemma TablesWellFormed()
    ensures WellFormed(SourceTable)
    ensures WellFormed(CorrectedTable)
  {
    WhatIsWellFormed();
    MechanismWellFormed();
    DiagnosisTimeWellFormed();
    PresentationWellFormed();
    ConfirmingWellFormed();
    TherapyWellFormed();
  }

  /** The third navigation topic is not a key of the table as written, so its
      quiz step shows the fallback question and no answers; the corrected table
      has an entry for every navigation topic. */
  lemma DiagnosticTimeTopicFallsBack()
    ensures Navigation.Topics[2] !in SourceTable
    ensures AnswersFor(SourceTable, Navigation.Topics[2]) == []
    ensures QuestionFor(SourceTable, Navigation.Topics[2]) == FallbackQuestion
    ensures forall i :: 0 <= i < |Navigation.Topics| && i != 2 ==> Navigation.Topics[i] in SourceTable
    ensures forall i :: 0 <= i < |Navigation.Topics| ==> Navigation.Topics[i] in CorrectedTable
  {
    assert |Navigation.Topics[2]| == 23;
    assert |"What Is ADH1?"| == 13 && |"Mechanism of Disease"| == 20 && |"Average Time to Diagnosis"| == 25;
    assert |"Clinical Presentation"| == 21 && |"Confirming Diagnosis"| == 20;
    assert |"Limitations of Conventional Therapy"| == 35;
  }

}
